=== FILE: README.md ===
# LLOG formatter model

A Dafny model of the header-only C++20 logging library LLOG (`llog.hpp`). The
library prints its arguments to standard output or to a file stream under a
*print template* (start, delimiter, end, colour). Overload resolution on C++
concepts decides whether an argument is printed as one scalar or taken apart
as a container. Two build switches control it: `LLOG_ENABLED` turns the
library on, and `LLOG_COLORS_ENABLED` turns on the ANSI colour escapes.

The model is functional. The state of the sinks is an immutable record
`Sinks(stdout, file, firstArg)`: standard output so far, the contents of the
file stream, and the library's global `firstArg` flag. Every public overload
is a function from one `Sinks` to the next. Arguments come in already rendered
by the host stream: a scalar is its text, and a container is the texts of its
elements. The build switches are the record `Gates(enabled, colors)`.

Modules:

- `Optional`, `Text`: `Option`, and `Join`/`Split`/`Concat` on strings with
  their inverse lemmas.
- `Decimal`: decimal rendering of non-negative integers (`std::to_string` and
  the `int` inserter), with its parser.
- `Colors`: the `Color` enumeration with ANSI numbering, the escape sequence,
  and its parser.
- `Templates`: `PrintTemplate` and the five presets.
- `Classify`: the concepts `String`, `Array`, `Iterable`, `Printable` and
  `Container` over an abstract type descriptor, and which overload family a
  call selects.
- `Formatter`: `SetColor` and every `Print`, `PrintToFile` and `PrintFromFile`
  overload.
- `SourceLocation`: `Location()` and its parser.
- `Session`: a sequence of calls on one state, with the properties that span
  calls.
- `Scenarios`: concrete calls and the exact bytes they produce.

## Model

| member | source | states |
|---|---|---|
| Decimal.Render | llog.hpp:208 | the numeral is canonical (non-empty, all digits, no leading zero except in `0`), and has one digit exactly for values below 10 |
| Decimal.ParseRender | llog.hpp:208 | reading a rendered line number back gives the number |
| Decimal.RenderParse | llog.hpp:208 | every canonical numeral is the rendering of its value, so rendering is onto the numerals `std::to_string` can write |
| Decimal.RenderInjective | llog.hpp:208 | different numbers never render the same |
| Colors.AnsiCode | llog.hpp:57-59 | every colour's SGR number lies in 30..38 |
| Colors.CodeBijection | llog.hpp:57-59 | a colour and its number determine each other, in both directions |
| Colors.EscapeRoundTrip | llog.hpp:98-100 | the escape written for a colour is `ESC [ digits m` and decodes back to that colour |
| Colors.EscapeInjective | llog.hpp:98-100 | different colours are written as different bytes |
| Formatter.SetColor | llog.hpp:91-101 | with colours on, appends exactly `ESC[<code>m`, and those bytes decode to the requested colour; with colours off, nothing changes; the file and `firstArg` never change |
| Formatter.DelimitedTailJoins | llog.hpp:154-155 | the first argument followed by the fold `(delimiter << arg)...` equals the arguments joined by the delimiter |
| Formatter.WriteScalars | llog.hpp:154-156 | the scalar writes append start, the arguments joined by the delimiter, and end |
| Formatter.PrintScalars | llog.hpp:149-160 | enabled: stdout gains the template colour, the framed arguments, and the default-colour restore, with no colour bytes when colours are off; disabled: no change; file and `firstArg` never change |
| Formatter.PrintScalarsDefault | llog.hpp:162-165 | uses the plain template, so without colours stdout gains the arguments joined by one space and a newline |
| Formatter.PlainLineSplits | llog.hpp:72-77 | a line written with the plain template ends in a newline, and splitting the rest at spaces recovers the arguments when none contains a space |
| Formatter.SpaceAfterEachIsSpaced | llog.hpp:109-112 | the element loop writes the elements separated by single spaces, plus one trailing space when there are any |
| Formatter.SpacedSplits | llog.hpp:109-112 | splitting a container's text at spaces gives its elements and one empty trailing piece, when no element contains a space |
| Formatter.PrintContainer | llog.hpp:106-115 | one container: enabled, stdout gains its spaced elements and then the delimiter, with no start, end or colour; `firstArg` and the file are unchanged; disabled, no change |
| Formatter.PrintContainers | llog.hpp:117-142 | two or more containers: stdout gains the colour, the start (only when `firstArg` was clear), the first row, each middle row preceded by another colour escape, the last row, the end once, and one restore per recursion level; `firstArg` is clear afterwards; disabled, no change |
| Formatter.ContainersOutput | llog.hpp:128-140 | one recursion level's output composes into the whole call's output |
| Formatter.ContainersPlain | llog.hpp:117-142 | with colours off and `firstArg` clear, the output is the start once, every container's row in order, and the end once |
| Formatter.PrintContainerCall | llog.hpp:106-142 | a single container leaves `firstArg` alone and writes its row; two or more write the variadic layout and clear `firstArg` |
| Formatter.PrintContainersDefault | llog.hpp:144-147 | uses the array template, so one container gives its spaced elements and a newline |
| Formatter.PrintToFile | llog.hpp:167-174 | enabled: the file gains start, the arguments joined by the delimiter, and end, with no colour bytes; stdout and `firstArg` are untouched; disabled: no change |
| Formatter.PrintToFileDefault | llog.hpp:176-179 | the file gains the arguments joined by one space and a newline |
| Formatter.PrintToPath | llog.hpp:181-185 | when the file opens it is truncated, so afterwards it holds exactly the plain-template line, or nothing when logging is disabled; when it fails to open, nothing changes; stdout is never touched |
| Formatter.PrintFromFile | llog.hpp:187-195 | an open stream's content is appended to stdout verbatim, without colour; otherwise, or when disabled, nothing changes |
| Formatter.PrintFromPath | llog.hpp:197-201 | the file's current contents are appended to stdout when it opens and logging is enabled |
| Classify.StringShapes | llog.hpp:32-33 | a type is string-like exactly when it is a character-like type, or a pointer to or an array of one |
| Classify.StringIsScalar | llog.hpp:41-48 | a string-like type is never a container, and is printable exactly when it can be inserted into `std::cout` |
| Classify.ArrayIsContainer | llog.hpp:41-48 | a raw array that is not string-like is never printable and is always a container |
| Classify.Dispatch | llog.hpp:106-165 | each outcome holds exactly when its condition does: scalar overload when the arguments are all printable and not all containers; single container overload for one container that is not printable; variadic overload for two or more such containers; `Overlapping` when all are both printable and containers; no viable overload for an empty call or one that is neither all printable nor all containers |
| Classify.StringArgumentNeverContainerCall | llog.hpp:44-48 | a call with a string-like argument never reaches a container overload |
| Classify.ArrayArgumentNeverScalarCall | llog.hpp:41-42 | a call with a non-string raw array never reaches the scalar overload |
| Classify.StringsDispatchToScalars | llog.hpp:149-165 | insertable string-like arguments always go to the scalar overload |
| Classify.ContainersDispatch | llog.hpp:106-147 | non-insertable containers go to the single overload when there is one and to the variadic overload otherwise |
| SourceLocation.Location | llog.hpp:203-210 | the string begins with `[FILE: ` and ends with `] `, parsing it gives back exactly the file name and line number, and it is the only string that parses to that site |
| SourceLocation.LocationExact | llog.hpp:203-210 | any string that parses as a location is exactly `[FILE: `, the file name, ` LINE: `, the `std::to_string` numeral of the line, and `] ` |
| SourceLocation.LocationParses | llog.hpp:203-210 | the fixed format `[FILE: <file> LINE: <decimal line>] ` parses back to its file and line |
| Session.Step | llog.hpp:106-201 | each call appends its emission to stdout; the file and `firstArg` follow reference definitions: only the file calls touch the file, and only the variadic container call touches `firstArg` |
| Session.StepAppends | llog.hpp:106-201 | what a call prints does not depend on what was printed before it |
| Session.RunAppends | llog.hpp:106-201 | a sequence of calls prints the earlier output followed by what the calls print on their own |
| Session.TwoCallsConcatenate | llog.hpp:149-160 | two calls in a row print the concatenation of their individual outputs |
| Session.SequencesConcatenate | llog.hpp:106-201 | two call sequences in a row print the concatenation of what each sequence prints on its own |
| Session.FirstArgStaysClear | llog.hpp:117-142 | no sequence of calls leaves `firstArg` set when it started clear |
| Session.DisabledRunIsSilent | llog.hpp:106-201 | with logging compiled out, stdout and `firstArg` never change, and the file changes only by the truncation of a path call |
| Session.FileRoundTrip | llog.hpp:181-201 | writing arguments to a path and printing that path back puts the plain-template line on stdout |
| Session.DisabledPathWriteEmptiesFile | llog.hpp:181-185 | with logging compiled out, a path call that opens the file still leaves it empty |
| Scenarios.PlainScalars | llog.hpp:162-165 | `Print("x", 1, 2.5)` without colours writes `x 1 2.5\n` |
| Scenarios.ErrorPreset | llog.hpp:214-220 | `Print(pt::error, "oops", 7)` without colours writes `Error: oops 7\n` |
| Scenarios.WarningPresetColored | llog.hpp:222-228 | `Print(pt::warning, "slow")` with colours writes `ESC[33mWarning: slow\nESC[37m` |
| Scenarios.SingleContainer | llog.hpp:144-147 | `Print(std::vector{10, 20, 30})`, one container holding 10, 20, 30, writes `10 20 30 \n` even with colours on |
| Scenarios.TwoContainers | llog.hpp:117-147 | `Print(std::vector{1, 2}, std::vector{3})` without colours writes `1 2 \n3 \n\n` and leaves `firstArg` clear |
| Scenarios.LocationOfMain | llog.hpp:203-210 | `Location()` on line 42 of `main.cpp` is `[FILE: main.cpp LINE: 42] ` |

## Quirks of the code the model keeps

- **Single container.** One container binds to the non-variadic overload at
  llog.hpp:106, because it is more specialised than the one at llog.hpp:117.
  So it writes no start, no end and no colour, only the elements and the
  delimiter (llog.hpp:109-113).
- **Several containers.** The variadic overload calls `SetColor(pt.color)`
  (llog.hpp:120) and `SetColor()` (llog.hpp:140) at every recursion level.
  So n containers get n - 1 colour escapes and n - 1 restores, with the start
  written once (llog.hpp:122-126) and the end once (llog.hpp:134-138).
- **Default colour.** `SetColor()` restores `m_defaultColor`, which is
  HIGH_INTENSITY_WHITE (code 37, llog.hpp:91). The enumerator `DEFAULT` is
  code 38 (llog.hpp:58).
- **Disabled build.** `PrintToFile(path, ...)` constructs `std::ofstream(path)`
  outside the `LLOG_ENABLED` guard (llog.hpp:183). With logging compiled out,
  it still truncates the file.
- **`firstArg`.** The flag is set at llog.hpp:124 and cleared only at
  llog.hpp:137, when exactly one container follows. If every call returns
  normally, it could stay set only if the variadic overload ran with an empty
  trailing pack, and overload resolution never selects it then.
  `Session.FirstArgStaysClear` shows the flag is clear between calls that
  return normally.

## Left out

- The Windows colour path: `SetConsoleTextAttribute`, `GetStdHandle`, and the
  Windows numbering of `Color` (llog.hpp:16-19, 52-55, 88, 94-96). These are
  host calls; only the ANSI path is modelled.
- How `std::ostream` renders argument values, including integers and
  floating point. Arguments are pre-rendered strings.
- Stream error states. A failed write on any stream is not modelled. Neither is
  the standard library's rule that `cout << rdbuf()` sets `failbit` on `cout`
  when it copies nothing, which silences later output.
- The filesystem. Opening a path becomes a boolean `opens`. There is one
  modelled file, which the path and stream overloads share.
- Template strings are `const char*`. Null pointers and embedded NUL
  characters are not modelled.
- The presets and `m_defaultColor` are mutable globals in the source. The
  model fixes them at their initial values, which the header never changes.
  A caller-changed template is just another template passed to the call.
- Whether `std::cout << x` compiles for a type (`CanBeCout`, llog.hpp:38-39)
  is a parameter `canCout` of the classification. It is not derived from the
  standard library's inserter overloads.
- Classify.Dispatch: if every argument is both printable and a container, C++
  overload ranking picks one by reference binding and partial ordering. The
  model reports `Overlapping` and does not choose.
- cv and reference qualifiers are absent from type descriptors. `Iterable`
  (llog.hpp:27) and `CanBeCout` (llog.hpp:39) do not strip them. But
  `Container` is only applied to the deduced `T` of `const Container auto&`,
  which carries neither, and `canCout` is a parameter.
- `Numeric` (llog.hpp:29-30) is unused by the header and is left out.
- Formatter.PrintContainers: requires at least two containers. The
  `if constexpr (sizeof...(args) > 0)` at llog.hpp:128 is therefore always
  taken, and an empty trailing pack is never modelled, because overload
  resolution never reaches the variadic overload with one container.
- Formatter.PrintContainerCall: states the stdout and `firstArg` effects. The
  byte layout is stated by `Formatter.PrintContainer` and
  `Formatter.PrintContainers`, which it calls.
- The `uint_least32_t` width of the line number is not modelled. Lines are
  unbounded naturals.
- Formatter.SetColor: the format state of `std::cout` is assumed to be the
  default: decimal base, no `showpos`, no pending `setw` or fill, classic
  locale. That covers the colour code inserted at llog.hpp:99 and the
  template strings at llog.hpp:154-156 and 113. A caller who leaves
  `std::hex` set makes llog.hpp:99 write the code in hexadecimal (`ESC[21m`
  for yellow), and a pending width pads the next insertion. The model states
  only the default-state bytes.
- Session.FirstArgStaysClear: exceptions are not modelled. An exception
  thrown by an element's `operator<<` (llog.hpp:111, reached through
  llog.hpp:130-131), or by a stream whose exception mask is set, can escape
  between llog.hpp:124 and llog.hpp:137. That leaves `firstArg` set, and the
  next multi-container call then skips `pt.start` (llog.hpp:122-126). The
  lemma covers only calls that return normally.
- Thread safety of `firstArg`, and interleaving on standard output, are
  concurrency concerns and are out of scope.

=== FILE: classify.dfy ===
/**
 The argument classification that selects an overload: the concepts
 `String`, `Array`, `Iterable`, `Printable` and `Container`, evaluated on an
 abstract description of a C++ argument type without references or
 cv-qualifiers: `Container` is only applied to the deduced `T` of
 `const Container auto&`, which carries neither, and whether `std::cout << x`
 compiles is a parameter of the classification.
 */
module Classify {

  /** The types the concepts single out, and every other type. */
  datatype Base =
    | Char
    | WideChar
    | StdString
    | StringView
      /** Any other type; `forwardConstIterator` says whether `T::const_iterator`
          exists and is a forward iterator. */
    | Other(name: string, forwardConstIterator: bool)

  datatype TypeDesc =
    | Named(base: Base)
    | PointerTo(pointee: TypeDesc)
    | ArrayOf(element: TypeDesc)

  /** `std::decay_t`: an array becomes a pointer to its element. */
  function Decay(t: TypeDesc): TypeDesc {
    match t
    case ArrayOf(e) => PointerTo(e)
    case _ => t
  }

  /** `std::remove_pointer_t`: one level of pointer is removed. */
  function RemovePointer(t: TypeDesc): TypeDesc {
    match t
    case PointerTo(p) => p
    case _ => t
  }

  predicate IsCharacterBase(b: Base) {
    b == Char || b == WideChar || b == StdString || b == StringView
  }

  /** Concept `String`. */
  predicate IsString(t: TypeDesc) {
    var u := RemovePointer(Decay(t));
    u.Named? && IsCharacterBase(u.base)
  }

  /** Concept `Array`. */
  predicate IsArray(t: TypeDesc) {
    t.ArrayOf?
  }

  /** Concept `Iterable`: only class types have a `const_iterator`. */
  predicate IsIterable(t: TypeDesc) {
    match t
    case Named(Other(_, it)) => it
    case Named(StdString) => true
    case Named(StringView) => true
    case _ => false
  }

  /** Concept `Printable`; whether `std::cout << x` compiles is the host's `canCout`. */
  predicate IsPrintable(canCout: TypeDesc -> bool, t: TypeDesc) {
    canCout(t) && (!IsArray(t) || IsString(t))
  }

  /** Concept `Container`. */
  predicate IsContainer(t: TypeDesc) {
    (IsIterable(t) || IsArray(t)) && !IsString(t)
  }

  /** String-likes are exactly a character-like type, a pointer to one, or an array of one. */
  lemma StringShapes(t: TypeDesc)
    ensures IsString(t) <==>
      (|| (t.Named? && IsCharacterBase(t.base))
       || (t.PointerTo? && t.pointee.Named? && IsCharacterBase(t.pointee.base))
       || (t.ArrayOf? && t.element.Named? && IsCharacterBase(t.element.base)))
  {
  }

  /** A string-like argument is never taken apart as a container, and is printable when it can be inserted. */
  lemma StringIsScalar(canCout: TypeDesc -> bool, t: TypeDesc)
    requires IsString(t)
    ensures !IsContainer(t)
    ensures IsPrintable(canCout, t) <==> canCout(t)
  {
  }

  /** A raw array that is not string-like is never printable, and is always a container. */
  lemma ArrayIsContainer(canCout: TypeDesc -> bool, t: TypeDesc)
    requires IsArray(t) && !IsString(t)
    ensures !IsPrintable(canCout, t)
    ensures IsContainer(t)
  {
  }

  /** The overload family a call's argument list selects. */
  datatype Resolution =
    | ScalarOverload        // Print(pt, Printable...) at lines 149-165
    | SingleContainer       // Print(pt, const Container&) at line 106
    | VariadicContainers    // Print(pt, const Container&, const Container&...) at line 117
    | Overlapping           // both families viable; C++ ranking decides, not modelled
    | NoViable              // no overload: a compile-time error

  predicate AllPrintable(canCout: TypeDesc -> bool, ts: seq<TypeDesc>) {
    forall i :: 0 <= i < |ts| ==> IsPrintable(canCout, ts[i])
  }

  predicate AllContainers(ts: seq<TypeDesc>) {
    forall i :: 0 <= i < |ts| ==> IsContainer(ts[i])
  }

  /** The overload chosen for a call whose arguments (after the template, if any) have types `ts`. */
  function Dispatch(canCout: TypeDesc -> bool, ts: seq<TypeDesc>): (r: Resolution)
    ensures r == ScalarOverload <==> |ts| >= 1 && AllPrintable(canCout, ts) && !AllContainers(ts)
    ensures r == Overlapping <==> |ts| >= 1 && AllPrintable(canCout, ts) && AllContainers(ts)
    ensures r == SingleContainer <==> |ts| == 1 && AllContainers(ts) && !AllPrintable(canCout, ts)
    ensures r == VariadicContainers <==> |ts| >= 2 && AllContainers(ts) && !AllPrintable(canCout, ts)
    ensures r == NoViable <==> |ts| == 0 || (!AllPrintable(canCout, ts) && !AllContainers(ts))
  {
    if |ts| == 0 then NoViable
    else
      var printable := AllPrintable(canCout, ts);
      var containers := AllContainers(ts);
      if printable && containers then Overlapping
      else if printable then ScalarOverload
      else if containers then (if |ts| == 1 then SingleContainer else VariadicContainers)
      else NoViable
  }

  /** A call with a string-like argument never reaches a container overload. */
  lemma StringArgumentNeverContainerCall(canCout: TypeDesc -> bool, ts: seq<TypeDesc>, i: nat)
    requires i < |ts| && IsString(ts[i])
    ensures Dispatch(canCout, ts) != SingleContainer
    ensures Dispatch(canCout, ts) != VariadicContainers
  {
    assert !IsContainer(ts[i]);
  }

  /** A call with a non-string array argument never reaches the scalar overload. */
  lemma ArrayArgumentNeverScalarCall(canCout: TypeDesc -> bool, ts: seq<TypeDesc>, i: nat)
    requires i < |ts| && IsArray(ts[i]) && !IsString(ts[i])
    ensures Dispatch(canCout, ts) != ScalarOverload
    ensures Dispatch(canCout, ts) != Overlapping
  {
    assert !IsPrintable(canCout, ts[i]);
  }

  /** Insertable string-likes always go to the scalar overload. */
  lemma StringsDispatchToScalars(canCout: TypeDesc -> bool, ts: seq<TypeDesc>)
    requires |ts| >= 1
    requires forall i :: 0 <= i < |ts| ==> IsString(ts[i]) && canCout(ts[i])
    ensures Dispatch(canCout, ts) == ScalarOverload
  {
    assert !IsContainer(ts[0]);
  }

  /** One container that cannot be inserted binds to the single-container overload; two or more to the variadic one. */
  lemma ContainersDispatch(canCout: TypeDesc -> bool, ts: seq<TypeDesc>)
    requires |ts| >= 1 && AllContainers(ts)
    requires !canCout(ts[0])
    ensures |ts| == 1 ==> Dispatch(canCout, ts) == SingleContainer
    ensures |ts| >= 2 ==> Dispatch(canCout, ts) == VariadicContainers
  {
    assert !IsPrintable(canCout, ts[0]);
  }

}

=== FILE: colors.dfy ===
/**
 The foreground colours and the ANSI escape sequences that select them
 (the non-Windows numbering of `llog::Color`).
 */
module Colors {
  import opened Optional
  import Decimal

  datatype Color =
    | Black | Red | Green | Yellow | Blue | Magenta | Cyan | HighIntensityWhite | Default

  /** The colour `SetColor()` restores when called without an argument. */
  const DefaultColor: Color := HighIntensityWhite

  const EscapeIntroducer: string := "\U{1B}["
  const EscapeTerminator: string := "m"

  /** The SGR number of each colour: consecutive values from 30. */
  function AnsiCode(c: Color): (n: nat)
    ensures 30 <= n <= 38
  {
    match c
    case Black => 30
    case Red => 31
    case Green => 32
    case Yellow => 33
    case Blue => 34
    case Magenta => 35
    case Cyan => 36
    case HighIntensityWhite => 37
    case Default => 38
  }

  /** The colour an SGR number denotes, if any. */
  function ColorOfCode(n: int): Option<Color> {
    if n == 30 then Some(Black)
    else if n == 31 then Some(Red)
    else if n == 32 then Some(Green)
    else if n == 33 then Some(Yellow)
    else if n == 34 then Some(Blue)
    else if n == 35 then Some(Magenta)
    else if n == 36 then Some(Cyan)
    else if n == 37 then Some(HighIntensityWhite)
    else if n == 38 then Some(Default)
    else None
  }

  /** `AnsiCode` and `ColorOfCode` are inverse: each colour has exactly one number. */
  lemma CodeBijection(c: Color, n: int)
    ensures ColorOfCode(n) == Some(c) <==> AnsiCode(c) == n
  {
  }

  /** The escape sequence for `c`: ESC, '[', the decimal code, 'm'. */
  function Escape(c: Color): string {
    EscapeIntroducer + Decimal.Render(AnsiCode(c)) + EscapeTerminator
  }

  /** The colour selected by a complete escape sequence, if `s` is one. */
  function ParseEscape(s: string): Option<Color> {
    if |s| >= 3 && s[..2] == EscapeIntroducer && s[|s| - 1] == 'm'
       && Decimal.AllDigits(s[2..|s| - 1])
    then ColorOfCode(Decimal.Parse(s[2..|s| - 1]))
    else None
  }

  /** Every escape the library writes is well formed and names the colour it was asked for. */
  lemma EscapeRoundTrip(c: Color)
    ensures ParseEscape(Escape(c)) == Some(c)
  {
    var e := Escape(c);
    var digits := Decimal.Render(AnsiCode(c));
    assert e[..2] == EscapeIntroducer;
    assert e[2..|e| - 1] == digits;
    Decimal.ParseRender(AnsiCode(c));
    CodeBijection(c, AnsiCode(c));
  }

  /** Different colours are written as different byte sequences. */
  lemma EscapeInjective(c: Color, d: Color)
    ensures Escape(c) == Escape(d) ==> c == d
  {
    EscapeRoundTrip(c);
    EscapeRoundTrip(d);
  }

  /** What a colour change writes to standard output: the escape when colours are on, nothing otherwise. */
  function ColorText(colors: bool, c: Color): string {
    if colors then Escape(c) else ""
  }

}

=== FILE: decimal.dfy ===
/**
 Decimal rendering of non-negative integers, as `std::to_string` produces it
 and as the `int` inserter of `std::ostream` produces it in the stream's
 default format state (decimal base, no `showpos`, no width, classic locale),
 for the values this library renders: colour codes and source line numbers,
 all non-negative.
 */
module Decimal {

  predicate IsDigit(ch: char) {
    '0' <= ch <= '9'
  }

  predicate AllDigits(s: string) {
    forall i :: 0 <= i < |s| ==> IsDigit(s[i])
  }

  /** A numeral as `std::to_string` writes one: digits only, no leading zero except in "0". */
  predicate Canonical(s: string) {
    |s| >= 1 && AllDigits(s) && (s[0] == '0' ==> |s| == 1)
  }

  function DigitChar(d: nat): (ch: char)
    requires d < 10
    ensures IsDigit(ch)
  {
    (('0' as int) + d) as char
  }

  function DigitValue(ch: char): (d: nat)
    requires IsDigit(ch)
    ensures d < 10
    ensures DigitChar(d) == ch
  {
    (ch as int) - ('0' as int)
  }

  /** The shortest decimal numeral of `n`: non-empty, digits only, no leading zero. */
  function Render(n: nat): (r: string)
    ensures |r| >= 1
    ensures AllDigits(r)
    ensures r[0] == '0' ==> n == 0
    ensures n < 10 <==> |r| == 1
    ensures Canonical(r)
    decreases n
  {
    if n < 10 then [DigitChar(n)]
    else Render(n / 10) + [DigitChar(n % 10)]
  }

  /** The value of a string of decimal digits (the empty string reads as zero). */
  function Parse(s: string): nat
    requires AllDigits(s)
    decreases |s|
  {
    if |s| == 0 then 0
    else Parse(s[..|s| - 1]) * 10 + DigitValue(s[|s| - 1])
  }

  /** Reading back a rendered numeral gives the number. */
  lemma {:induction false} ParseRender(n: nat)
    ensures Parse(Render(n)) == n
    decreases n
  {
    if n >= 10 {
      var r := Render(n);
      assert r[..|r| - 1] == Render(n / 10);
      ParseRender(n / 10);
    }
  }

  /** A numeral without a leading zero reads as a positive number. */
  lemma {:induction false} ParsePositive(s: string)
    requires |s| >= 1 && AllDigits(s) && s[0] != '0'
    ensures Parse(s) >= 1
    decreases |s|
  {
    if |s| > 1 {
      ParsePositive(s[..|s| - 1]);
    }
  }

  /** Rendering the value of a canonical numeral gives back the numeral: `Render` is onto the canonical numerals. */
  lemma {:induction false} RenderParse(s: string)
    requires Canonical(s)
    ensures Render(Parse(s)) == s
    decreases |s|
  {
    if |s| > 1 {
      var p := s[..|s| - 1];
      ParsePositive(p);
      RenderParse(p);
      assert p + [s[|s| - 1]] == s;
    }
  }

  /** Rendering is injective: different numbers never print the same. */
  lemma RenderInjective(m: nat, n: nat)
    ensures Render(m) == Render(n) ==> m == n
  {
    ParseRender(m);
    ParseRender(n);
  }

}

=== FILE: formatter.dfy ===
/**
 The formatter: every `Print`, `PrintToFile` and `PrintFromFile` overload as a
 function from the sinks' state to their state after the call. Arguments are
 given already rendered by the host stream (a scalar as its text, a container
 as the texts of its elements); the functions only ever append to standard
 output.
 */
module Formatter {
  import opened Optional
  import opened Colors
  import opened Templates
  import Text

  /** The two build switches: `LLOG_ENABLED` and `LLOG_COLORS_ENABLED`. */
  datatype Gates = Gates(enabled: bool, colors: bool)

  /** Standard output so far, the contents of the file stream, and the global `firstArg` flag. */
  datatype Sinks = Sinks(stdout: string, file: string, firstArg: bool)

  /**
   `SetColor(color)`: the escape for `c` when colours are compiled in, nothing
   otherwise. `std::cout` is taken to be in its default format state.
   */
  function SetColor(colors: bool, c: Color, s: Sinks): (r: Sinks)
    ensures r.file == s.file && r.firstArg == s.firstArg
    ensures r.stdout == s.stdout + ColorText(colors, c)
    ensures colors ==> r.stdout == s.stdout + Escape(c)
    ensures colors ==> ParseEscape(r.stdout[|s.stdout|..]) == Some(c)
    ensures !colors ==> r == s
  {
    if colors then
      EscapeRoundTrip(c);
      var out := s.stdout + EscapeIntroducer;
      var out' := out + Decimal.Render(AnsiCode(c));
      s.(stdout := out' + EscapeTerminator)
    else s
  }

  // ---------------------------------------------------------------- scalars

  /** The fold `((os << delimiter << args), ...)`: each further argument preceded by the delimiter. */
  function DelimitedTail(delimiter: string, args: seq<string>): string
    decreases |args|
  {
    if |args| == 0 then ""
    else delimiter + args[0] + DelimitedTail(delimiter, args[1..])
  }

  /** The first argument followed by the fold is the arguments joined by the delimiter. */
  lemma {:induction false} DelimitedTailJoins(delimiter: string, first: string, rest: seq<string>)
    ensures first + DelimitedTail(delimiter, rest) == Text.Join(delimiter, [first] + rest)
    decreases |rest|
  {
    if |rest| > 0 {
      DelimitedTailJoins(delimiter, rest[0], rest[1..]);
      assert [rest[0]] + rest[1..] == rest;
      assert ([first] + rest)[1..] == rest;
    }
  }

  /** The framing of the scalar protocol: start, the arguments separated by the delimiter, end. */
  function Framed(pt: PrintTemplate, args: seq<string>): string {
    pt.start + Text.Join(pt.delimiter, args) + pt.end
  }

  /** What the scalar overloads write to a stream: `os << start << arg; ((os << delimiter << args), ...); os << end`. */
  function WriteScalars(out: string, pt: PrintTemplate, args: seq<string>): (r: string)
    requires |args| >= 1
    ensures r == out + Framed(pt, args)
  {
    DelimitedTailJoins(pt.delimiter, args[0], args[1..]);
    assert [args[0]] + args[1..] == args;
    var o1 := out + pt.start + args[0];
    var o2 := o1 + DelimitedTail(pt.delimiter, args[1..]);
    o2 + pt.end
  }

  /** What a scalar `Print` writes: the template's colour, the framed arguments, the restore to the default colour. */
  function ScalarText(colors: bool, pt: PrintTemplate, args: seq<string>): string {
    ColorText(colors, pt.color) + Framed(pt, args) + ColorText(colors, DefaultColor)
  }

  /** `Print(pt, arg, args...)` for printable arguments. */
  function PrintScalars(g: Gates, pt: PrintTemplate, args: seq<string>, s: Sinks): (r: Sinks)
    requires |args| >= 1
    ensures r.file == s.file && r.firstArg == s.firstArg
    ensures !g.enabled ==> r == s
    ensures g.enabled ==> r.stdout == s.stdout + ScalarText(g.colors, pt, args)
  {
    if !g.enabled then s
    else
      var s1 := SetColor(g.colors, pt.color, s);
      var s2 := s1.(stdout := WriteScalars(s1.stdout, pt, args));
      var r := SetColor(g.colors, DefaultColor, s2);
      RegroupThree(s.stdout, ColorText(g.colors, pt.color), Framed(pt, args), ColorText(g.colors, DefaultColor));
      r
  }

  /** Regroups concatenations only; it steers the solver and has no counterpart in the library. */
  lemma RegroupThree(out: string, a: string, b: string, c: string)
    ensures out + a + b + c == out + (a + b + c)
  {
  }

  /** `Print(arg, args...)` for printable arguments: the plain template. */
  function PrintScalarsDefault(g: Gates, args: seq<string>, s: Sinks): (r: Sinks)
    requires |args| >= 1
    ensures r.file == s.file && r.firstArg == s.firstArg
    ensures !g.enabled ==> r == s
    ensures g.enabled ==> r.stdout == s.stdout + ScalarText(g.colors, PlainTemplate, args)
    ensures g.enabled && !g.colors ==> r.stdout == s.stdout + Text.Join(" ", args) + "\n"
  {
    PrintScalars(g, PlainTemplate, args, s)
  }

  /** With the plain template and no space inside any argument, the line written splits back into the arguments. */
  lemma PlainLineSplits(args: seq<string>)
    requires |args| >= 1
    requires forall i :: 0 <= i < |args| ==> ' ' !in args[i]
    ensures Text.Split(Framed(PlainTemplate, args)[..|Framed(PlainTemplate, args)| - 1], ' ') == args
    ensures Framed(PlainTemplate, args)[|Framed(PlainTemplate, args)| - 1] == '\n'
  {
    var f := Framed(PlainTemplate, args);
    assert f == Text.Join(" ", args) + "\n";
    assert f[..|f| - 1] == Text.Join([' '], args);
    Text.SplitJoin(args, ' ');
  }

  // ------------------------------------------------------------- containers

  /** The loop `for (x : arr) cout << x << ' '`: every element followed by one space. */
  function SpaceAfterEach(elems: seq<string>): string
    decreases |elems|
  {
    if |elems| == 0 then ""
    else elems[0] + " " + SpaceAfterEach(elems[1..])
  }

  /** The elements separated by single spaces, with one trailing space when there are any. */
  function Spaced(elems: seq<string>): string {
    if |elems| == 0 then "" else Text.Join(" ", elems) + " "
  }

  lemma {:induction false} SpaceAfterEachIsSpaced(elems: seq<string>)
    ensures SpaceAfterEach(elems) == Spaced(elems)
    decreases |elems|
  {
    if |elems| > 1 {
      SpaceAfterEachIsSpaced(elems[1..]);
    }
  }

  /** The elements of a container whose elements contain no space can be read back from its text. */
  lemma SpacedSplits(elems: seq<string>)
    requires |elems| >= 1
    requires forall i :: 0 <= i < |elems| ==> ' ' !in elems[i]
    ensures Text.Split(Spaced(elems), ' ') == elems + [""]
  {
    Text.JoinSnoc([' '], elems, "");
    assert Spaced(elems) == Text.Join([' '], elems + [""]);
    Text.SplitJoin(elems + [""], ' ');
  }

  /** What one container contributes: its spaced elements, then the template's delimiter. */
  function Row(pt: PrintTemplate, elems: seq<string>): string {
    Spaced(elems) + pt.delimiter
  }

  /** `Print(pt, arr)` for a single container (line 106): no start, end or colour; `firstArg` untouched. */
  function PrintContainer(g: Gates, pt: PrintTemplate, elems: seq<string>, s: Sinks): (r: Sinks)
    ensures r.file == s.file && r.firstArg == s.firstArg
    ensures !g.enabled ==> r == s
    ensures g.enabled ==> r.stdout == s.stdout + Row(pt, elems)
  {
    if !g.enabled then s
    else
      SpaceAfterEachIsSpaced(elems);
      var out := s.stdout + SpaceAfterEach(elems);
      s.(stdout := out + pt.delimiter)
  }

  /** The row of every container, in order. */
  function Rows(pt: PrintTemplate, cs: seq<seq<string>>): (rows: seq<string>)
    ensures |rows| == |cs|
    ensures forall i :: 0 <= i < |cs| ==> rows[i] == Row(pt, cs[i])
  {
    seq(|cs|, i requires 0 <= i < |cs| => Row(pt, cs[i]))
  }

  /** `n` copies of `x`. */
  function Repeat(x: string, n: nat): string
    decreases n
  {
    if n == 0 then "" else Repeat(x, n - 1) + x
  }

  /** Every row preceded by `e`. */
  function Prefixed(e: string, rows: seq<string>): string
    decreases |rows|
  {
    if |rows| == 0 then "" else e + rows[0] + Prefixed(e, rows[1..])
  }

  /**
   The shape of the variadic container output: the colour escape `e`, the
   start, the first row, every middle row preceded by another `e`, the last
   row, the end, and one restore `d` per recursion level.
   */
  function Layout(e: string, start: string, rows: seq<string>, end: string, d: string): string
    requires |rows| >= 2
  {
    e + start + rows[0] + Prefixed(e, rows[1..|rows| - 1]) + rows[|rows| - 1] + end + Repeat(d, |rows| - 1)
  }

  /** The bytes one call of the variadic container overload writes, given the `firstArg` flag on entry. */
  function ContainersText(colors: bool, pt: PrintTemplate, cs: seq<seq<string>>, firstArg: bool): string
    requires |cs| >= 2
  {
    Layout(ColorText(colors, pt.color), if firstArg then "" else pt.start, Rows(pt, cs), pt.end,
           ColorText(colors, DefaultColor))
  }

  lemma LayoutTwo(e: string, start: string, rows: seq<string>, end: string, d: string)
    requires |rows| == 2
    ensures Layout(e, start, rows, end, d) == e + start + rows[0] + rows[1] + end + d
  {
    assert rows[1..1] == [];
    assert Repeat(d, 1) == d;
  }

  /** One level of the recursion: the outer level adds colour, start and first row in front, one restore behind. */
  lemma LayoutStep(e: string, start: string, rows: seq<string>, end: string, d: string)
    requires |rows| >= 3
    ensures Layout(e, start, rows, end, d) == e + start + rows[0] + Layout(e, "", rows[1..], end, d) + d
  {
    var n := |rows|;
    var tail := rows[1..];
    assert tail[1..|tail| - 1] == rows[2..n - 1];
    assert tail[|tail| - 1] == rows[n - 1];
    assert rows[1..n - 1][1..] == rows[2..n - 1];
    var mid' := Prefixed(e, rows[2..n - 1]);
    var rep' := Repeat(d, n - 2);
    assert Prefixed(e, rows[1..n - 1]) == e + rows[1] + mid';
    assert Repeat(d, n - 1) == rep' + d;
    Regroup(e + start + rows[0], e + rows[1], mid', rows[n - 1], end, rep', d);
  }

  lemma LayoutTwoAfter(out: string, e: string, start: string, rows: seq<string>, end: string, d: string)
    requires |rows| == 2
    ensures out + e + start + rows[0] + rows[1] + end + d == out + Layout(e, start, rows, end, d)
  {
    LayoutTwo(e, start, rows, end, d);
    RegroupTwo(out, e, start, rows[0], rows[1], end, d);
  }

  lemma LayoutStepAfter(out: string, e: string, start: string, rows: seq<string>, end: string, d: string)
    requires |rows| >= 3
    ensures out + e + start + rows[0] + Layout(e, "", rows[1..], end, d) + d == out + Layout(e, start, rows, end, d)
  {
    LayoutStep(e, start, rows, end, d);
    RegroupOut(out, e, start, rows[0], Layout(e, "", rows[1..], end, d), d);
  }

  /** Regroups concatenations only; it steers the solver and has no counterpart in the library. */
  lemma Regroup(a: string, b: string, m: string, r: string, e: string, p: string, d: string)
    ensures a + (b + m) + r + e + (p + d) == a + (b + "" + m + r + e + p) + d
  {
  }

  /** Regroups concatenations only; it steers the solver and has no counterpart in the library. */
  lemma RegroupTwo(out: string, e: string, st: string, r0: string, r1: string, en: string, d: string)
    ensures out + e + st + r0 + r1 + en + d == out + (e + st + r0 + r1 + en + d)
  {
  }

  /** Regroups concatenations only; it steers the solver and has no counterpart in the library. */
  lemma RegroupOut(out: string, e: string, st: string, r0: string, t: string, d: string)
    ensures out + e + st + r0 + t + d == out + (e + st + r0 + t + d)
  {
  }

  /** Entry to a level of the variadic overload: `SetColor(pt.color)`, then the start if `firstArg` was clear. */
  function OpenContainers(colors: bool, pt: PrintTemplate, s: Sinks): (r: Sinks)
    ensures r.file == s.file && r.firstArg
    ensures r.stdout == s.stdout + ColorText(colors, pt.color) + (if s.firstArg then "" else pt.start)
  {
    var s1 := SetColor(colors, pt.color, s);
    if !s1.firstArg then s1.(firstArg := true, stdout := s1.stdout + pt.start) else s1
  }

  /** The innermost level's `cout << pt.end; firstArg = false;`. */
  function CloseContainers(pt: PrintTemplate, s: Sinks): (r: Sinks)
    ensures r.file == s.file && !r.firstArg
    ensures r.stdout == s.stdout + pt.end
  {
    s.(stdout := s.stdout + pt.end, firstArg := false)
  }

  /**
   `Print(pt, arg, args...)` for two or more containers (line 117). The
   recursion `Print(pt, arg); Print(pt, args...)` reaches the single-container
   overload for the first argument, and for the rest when one is left; the
   end is written, and `firstArg` cleared, only at the innermost level.
   */
  function PrintContainers(g: Gates, pt: PrintTemplate, cs: seq<seq<string>>, s: Sinks): (r: Sinks)
    requires |cs| >= 2
    ensures r.file == s.file
    ensures !g.enabled ==> r == s
    ensures g.enabled ==> !r.firstArg
    ensures g.enabled ==> r.stdout == s.stdout + ContainersText(g.colors, pt, cs, s.firstArg)
    decreases |cs|
  {
    if !g.enabled then s
    else
      var s3 := PrintContainer(g, pt, cs[0], OpenContainers(g.colors, pt, s));
      var s5 := if |cs| - 1 == 1 then CloseContainers(pt, PrintContainer(g, pt, cs[1], s3))
                else PrintContainers(g, pt, cs[1..], s3);
      ContainersOutput(g.colors, pt, cs, s.stdout, s.firstArg, s3.stdout, s5.stdout);
      SetColor(g.colors, DefaultColor, s5)
  }

  /** How the output of one level of `PrintContainers` composes from its parts. */
  lemma ContainersOutput(colors: bool, pt: PrintTemplate, cs: seq<seq<string>>, out: string, firstArg: bool,
                         out3: string, out5: string)
    requires |cs| >= 2
    requires out3 == out + ColorText(colors, pt.color) + (if firstArg then "" else pt.start) + Row(pt, cs[0])
    requires |cs| == 2 ==> out5 == out3 + Row(pt, cs[1]) + pt.end
    requires |cs| > 2 ==> out5 == out3 + ContainersText(colors, pt, cs[1..], true)
    ensures out5 + ColorText(colors, DefaultColor) == out + ContainersText(colors, pt, cs, firstArg)
  {
    var e := ColorText(colors, pt.color);
    var st := if firstArg then "" else pt.start;
    var d := ColorText(colors, DefaultColor);
    var rows := Rows(pt, cs);
    if |cs| == 2 {
      LayoutTwoAfter(out, e, st, rows, pt.end, d);
    } else {
      assert Rows(pt, cs[1..]) == rows[1..];
      LayoutStepAfter(out, e, st, rows, pt.end, d);
    }
  }

  /** `Print(pt, args...)` for containers: one container binds to line 106, more to line 117. */
  function PrintContainerCall(g: Gates, pt: PrintTemplate, cs: seq<seq<string>>, s: Sinks): (r: Sinks)
    requires |cs| >= 1
    ensures r.file == s.file
    ensures !g.enabled ==> r == s
    ensures |cs| == 1 ==> r.firstArg == s.firstArg
    ensures |cs| >= 2 && g.enabled ==> !r.firstArg
    ensures g.enabled && |cs| == 1 ==> r.stdout == s.stdout + Row(pt, cs[0])
    ensures g.enabled && |cs| >= 2 ==> r.stdout == s.stdout + ContainersText(g.colors, pt, cs, s.firstArg)
  {
    if |cs| == 1 then PrintContainer(g, pt, cs[0], s)
    else PrintContainers(g, pt, cs, s)
  }

  /** `Print(arg, args...)` for containers: the array template. */
  function PrintContainersDefault(g: Gates, cs: seq<seq<string>>, s: Sinks): (r: Sinks)
    requires |cs| >= 1
    ensures r.file == s.file
    ensures !g.enabled ==> r == s
    ensures g.enabled && |cs| == 1 ==> r.stdout == s.stdout + Row(ArrayTemplate, cs[0])
    ensures g.enabled && |cs| == 1 ==> r.stdout == s.stdout + Spaced(cs[0]) + "\n"
    ensures |cs| == 1 ==> r.firstArg == s.firstArg
    ensures g.enabled && |cs| >= 2 ==> !r.firstArg
    ensures g.enabled && |cs| >= 2 ==> r.stdout == s.stdout + ContainersText(g.colors, ArrayTemplate, cs, s.firstArg)
  {
    PrintContainerCall(g, ArrayTemplate, cs, s)
  }

  lemma {:induction false} PrefixedEmpty(rows: seq<string>)
    ensures Prefixed("", rows) == Text.Concat(rows)
    decreases |rows|
  {
    if |rows| > 0 {
      PrefixedEmpty(rows[1..]);
    }
  }

  lemma {:induction false} RepeatEmpty(n: nat)
    ensures Repeat("", n) == ""
    decreases n
  {
    if n > 0 {
      RepeatEmpty(n - 1);
    }
  }

  /** Without colour escapes the layout is the start, all rows in order, and the end. */
  lemma LayoutPlain(start: string, rows: seq<string>, end: string)
    requires |rows| >= 2
    ensures Layout("", start, rows, end, "") == start + Text.Concat(rows) + end
  {
    var n := |rows|;
    var mid := rows[1..n - 1];
    var pm := Prefixed("", mid);
    var rep := Repeat("", n - 1);
    assert Layout("", start, rows, end, "") == "" + start + rows[0] + pm + rows[n - 1] + end + rep;
    assert pm == Text.Concat(mid) by {
      PrefixedEmpty(mid);
    }
    assert rep == "" by {
      RepeatEmpty(n - 1);
    }
    Text.ConcatEnds(rows);
    RegroupPlain(start, rows[0], Text.Concat(mid), rows[n - 1], end, pm, rep);
  }

  /** Regroups concatenations only; it steers the solver and has no counterpart in the library. */
  lemma RegroupPlain(st: string, r0: string, m: string, rl: string, en: string, pm: string, rep: string)
    requires pm == m && rep == ""
    ensures "" + st + r0 + pm + rl + en + rep == st + (r0 + (m + rl)) + en
  {
  }

  /**
   With colours off and `firstArg` clear, two or more containers are written
   as the start once, every container's row in order, and the end once.
   */
  lemma ContainersPlain(pt: PrintTemplate, cs: seq<seq<string>>)
    requires |cs| >= 2
    ensures ContainersText(false, pt, cs, false) == pt.start + Text.Concat(Rows(pt, cs)) + pt.end
  {
    LayoutPlain(pt.start, Rows(pt, cs), pt.end);
  }

  // ------------------------------------------------------------------ files

  /** `PrintToFile(ofs, pt, arg, args...)`: the scalar framing on the file stream; no colour, stdout untouched. */
  function PrintToFile(g: Gates, pt: PrintTemplate, args: seq<string>, s: Sinks): (r: Sinks)
    requires |args| >= 1
    ensures r.stdout == s.stdout && r.firstArg == s.firstArg
    ensures g.enabled ==> r.file == s.file + Framed(pt, args)
    ensures !g.enabled ==> r == s
  {
    if !g.enabled then s
    else s.(file := WriteScalars(s.file, pt, args))
  }

  /** `PrintToFile(ofs, arg, args...)`: the plain template. */
  function PrintToFileDefault(g: Gates, args: seq<string>, s: Sinks): (r: Sinks)
    requires |args| >= 1
    ensures r.stdout == s.stdout && r.firstArg == s.firstArg
    ensures g.enabled ==> r.file == s.file + Framed(PlainTemplate, args)
    ensures g.enabled ==> r.file == s.file + Text.Join(" ", args) + "\n"
    ensures !g.enabled ==> r == s
  {
    PrintToFile(g, PlainTemplate, args, s)
  }

  /**
   `PrintToFile(path, arg, args...)`: constructing `std::ofstream(path)`
   truncates the file (even when logging is compiled out) and then the plain
   template is written. When the file cannot be opened, nothing changes.
   */
  function PrintToPath(g: Gates, opens: bool, args: seq<string>, s: Sinks): (r: Sinks)
    requires |args| >= 1
    ensures r.stdout == s.stdout && r.firstArg == s.firstArg
    ensures !opens ==> r == s
    ensures opens && g.enabled ==> r.file == Framed(PlainTemplate, args)
    ensures opens && g.enabled ==> r.file == Text.Join(" ", args) + "\n"
    ensures opens && !g.enabled ==> r.file == ""
  {
    if !opens then s
    else PrintToFile(g, PlainTemplate, args, s.(file := ""))
  }

  /** `PrintFromFile(ifs)`: an open stream's remaining `content` is copied to stdout verbatim. */
  function PrintFromFile(g: Gates, isOpen: bool, content: string, s: Sinks): (r: Sinks)
    ensures r.file == s.file && r.firstArg == s.firstArg
    ensures g.enabled && isOpen ==> r.stdout == s.stdout + content
    ensures !(g.enabled && isOpen) ==> r == s
  {
    if g.enabled && isOpen then s.(stdout := s.stdout + content)
    else s
  }

  /** `PrintFromFile(path)`: the modelled file, read through a freshly opened stream. */
  function PrintFromPath(g: Gates, opens: bool, s: Sinks): (r: Sinks)
    ensures r.file == s.file && r.firstArg == s.firstArg
    ensures g.enabled && opens ==> r.stdout == s.stdout + s.file
    ensures !(g.enabled && opens) ==> r == s
  {
    PrintFromFile(g, opens, s.file, s)
  }

}

=== FILE: location.dfy ===
/** `Location()`: the bracketed call-site string meant as a leading `Print` argument. */
module SourceLocation {
  import opened Optional
  import Decimal

  /** A captured call site: `file_name()` and `line()` of a `std::source_location`. */
  datatype Site = Site(file: string, line: nat)

  const FileTag: string := "[FILE: "
  const LineTag: string := " LINE: "
  const Closing: string := "] "

  /** `Location(loc)`: the file name and decimal line between the fixed tags, with a trailing space. */
  function Location(file: string, line: nat): (r: string)
    ensures |r| >= |FileTag| + |file| + |LineTag| + 1 + |Closing|
    ensures r[..|FileTag|] == FileTag
    ensures r[|r| - |Closing|..] == Closing
    ensures ParseLocation(r) == Some(Site(file, line))
    ensures forall s :: ParseLocation(s) == Some(Site(file, line)) ==> s == r
  {
    LocationParses(file, line);
    LocationUnique(file, line);
    "[FILE: " + file + " LINE: " + Decimal.Render(line) + "] "
  }

  /** Where the trailing run of digits of `s` begins. */
  function DigitRunStart(s: string): (k: nat)
    ensures k <= |s|
    ensures forall i :: k <= i < |s| ==> Decimal.IsDigit(s[i])
    ensures k > 0 ==> !Decimal.IsDigit(s[k - 1])
    decreases |s|
  {
    if |s| == 0 || !Decimal.IsDigit(s[|s| - 1]) then |s|
    else DigitRunStart(s[..|s| - 1])
  }

  /** The digit run after a prefix that ends in a non-digit starts right after that prefix. */
  lemma {:induction false} DigitRunAfter(p: string, ds: string)
    requires |p| > 0 && !Decimal.IsDigit(p[|p| - 1])
    requires Decimal.AllDigits(ds)
    ensures DigitRunStart(p + ds) == |p|
    decreases |ds|
  {
    var s := p + ds;
    if |ds| == 0 {
      assert s == p;
    } else {
      assert s[..|s| - 1] == p + ds[..|ds| - 1];
      DigitRunAfter(p, ds[..|ds| - 1]);
    }
  }

  /** The call site a location string names, if `s` is one. */
  function ParseLocation(s: string): Option<Site> {
    if |s| < |FileTag| + |Closing| || s[..|FileTag|] != FileTag || s[|s| - |Closing|..] != Closing then None
    else ParseSite(s[|FileTag|..|s| - |Closing|])
  }

  /**
   The file name and line between the tags: the trailing digits after the line
   tag, which must be a numeral as `std::to_string` writes it.
   */
  function ParseSite(body: string): Option<Site> {
    var k := DigitRunStart(body);
    if k == |body| || k < |LineTag| || body[k - |LineTag|..k] != LineTag || !Decimal.Canonical(body[k..]) then None
    else Some(Site(body[..k - |LineTag|], Decimal.Parse(body[k..])))
  }

  lemma SiteParses(file: string, line: nat)
    ensures ParseSite(file + LineTag + Decimal.Render(line)) == Some(Site(file, line))
  {
    var digits := Decimal.Render(line);
    var p := file + LineTag;
    var body := p + digits;
    assert file + LineTag + digits == body;
    DigitRunAfter(p, digits);
    assert body[|p|..] == digits;
    assert body[|p| - |LineTag|..|p|] == LineTag;
    assert body[..|p| - |LineTag|] == file;
    Decimal.ParseRender(line);
  }

  lemma LocationParses(file: string, line: nat)
    ensures ParseLocation("[FILE: " + file + " LINE: " + Decimal.Render(line) + "] ") == Some(Site(file, line))
  {
    var digits := Decimal.Render(line);
    var body := file + LineTag + digits;
    var s := "[FILE: " + file + " LINE: " + digits + "] ";
    Bracketed(FileTag, file, LineTag, digits, Closing);
    assert s == FileTag + body + Closing;
    SiteParses(file, line);
  }

  /** A body the parser accepts is exactly the file name, the line tag and the rendered line. */
  lemma SiteExact(body: string, site: Site)
    requires ParseSite(body) == Some(site)
    ensures body == site.file + LineTag + Decimal.Render(site.line)
  {
    var k := DigitRunStart(body);
    assert body == body[..k - |LineTag|] + body[k - |LineTag|..k] + body[k..];
    Decimal.RenderParse(body[k..]);
  }

  /** A string the parser accepts is exactly the location string of the site it names. */
  lemma LocationExact(s: string, site: Site)
    requires ParseLocation(s) == Some(site)
    ensures s == FileTag + site.file + LineTag + Decimal.Render(site.line) + Closing
  {
    var i, j := |FileTag|, |s| - |Closing|;
    var body := s[i..j];
    assert ParseSite(body) == Some(site);
    assert s[..i] == FileTag && s[j..] == Closing;
    SiteExact(body, site);
    Unbracket(s, i, j, FileTag, site.file + LineTag + Decimal.Render(site.line), Closing);
  }

  /** Splits a string at two positions; it steers the solver and has no counterpart in the library. */
  lemma Unbracket(s: string, i: nat, j: nat, a: string, b: string, c: string)
    requires i <= j <= |s|
    requires s[..i] == a && s[i..j] == b && s[j..] == c
    ensures s == a + b + c
  {
    assert s == s[..i] + s[i..j] + s[j..];
  }

  /** Only one string names a given call site. */
  lemma LocationUnique(file: string, line: nat)
    ensures forall s :: ParseLocation(s) == Some(Site(file, line)) ==> s == FileTag + file + LineTag + Decimal.Render(line) + Closing
  {
    forall s | ParseLocation(s) == Some(Site(file, line))
      ensures s == FileTag + file + LineTag + Decimal.Render(line) + Closing
    {
      LocationExact(s, Site(file, line));
    }
  }

  /** Regroups and slices concatenations only; it steers the solver and has no counterpart in the library. */
  lemma Bracketed(a: string, f: string, t: string, d: string, c: string)
    ensures a + f + t + d + c == a + (f + t + d) + c
    ensures (a + (f + t + d) + c)[..|a|] == a
    ensures (a + (f + t + d) + c)[|a + (f + t + d) + c| - |c|..] == c
    ensures (a + (f + t + d) + c)[|a|..|a + (f + t + d) + c| - |c|] == f + t + d
  {
  }

}

=== FILE: optional.dfy ===
/** An optional value, used for the partial inverses (parsers) of the model's renderers. */
module Optional {

  datatype Option<+T> = None | Some(value: T)

}

=== FILE: scenarios.dfy ===
/** Concrete calls and the exact bytes the model says they produce. */
module Scenarios {
  import opened Colors
  import opened Templates
  import opened Formatter
  import SourceLocation
  import Decimal
  import Text

  const Quiet: Gates := Gates(true, false)
  const Colored: Gates := Gates(true, true)
  const Fresh: Sinks := Sinks("", "", false)

  /** `Print("x", 1, 2.5)` without colours. */
  lemma PlainScalars()
    ensures PrintScalarsDefault(Quiet, ["x", "1", "2.5"], Fresh).stdout == "x 1 2.5\n"
  {
  }

  /** `Print(pt::error, "oops", 7)` without colours. */
  lemma ErrorPreset()
    ensures PrintScalars(Quiet, ErrorTemplate, ["oops", "7"], Fresh).stdout == "Error: oops 7\n"
  {
  }

  /** `Print(pt::warning, "slow")` with ANSI colours: yellow, the line, back to high-intensity white. */
  lemma WarningPresetColored()
    ensures PrintScalars(Colored, WarningTemplate, ["slow"], Fresh).stdout
            == "\U{1B}[33mWarning: slow\n\U{1B}[37m"
  {
    WarningEscapes();
    assert Framed(WarningTemplate, ["slow"]) == "Warning: slow\n";
    assert PrintScalars(Colored, WarningTemplate, ["slow"], Fresh).stdout
           == Escape(Yellow) + "Warning: slow\n" + Escape(HighIntensityWhite);
    WarningBytes(Escape(Yellow), "Warning: slow\n", Escape(HighIntensityWhite));
  }

  /** Regroups concatenations only; it steers the solver and has no counterpart in the library. */
  lemma WarningBytes(e: string, line: string, d: string)
    requires e == "\U{1B}[33m" && line == "Warning: slow\n" && d == "\U{1B}[37m"
    ensures e + line + d == "\U{1B}[33mWarning: slow\n\U{1B}[37m"
  {
  }

  lemma WarningEscapes()
    ensures Escape(Yellow) == "\U{1B}[33m"
    ensures Escape(HighIntensityWhite) == "\U{1B}[37m"
  {
    assert Decimal.Render(33) == "33";
    assert Decimal.Render(37) == "37";
  }

  /** `Print(std::vector{10, 20, 30})`: the single-container overload, ending in the array template's delimiter. */
  lemma SingleContainer()
    ensures PrintContainersDefault(Colored, [["10", "20", "30"]], Fresh).stdout == "10 20 30 \n"
  {
  }

  /** `Print(std::vector{1, 2}, std::vector{3})` without colours: start, two rows, end. */
  lemma TwoContainers()
    ensures PrintContainersDefault(Quiet, [["1", "2"], ["3"]], Fresh).stdout == "1 2 \n3 \n\n"
    ensures !PrintContainersDefault(Quiet, [["1", "2"], ["3"]], Fresh).firstArg
  {
    var cs := [["1", "2"], ["3"]];
    ContainersPlain(ArrayTemplate, cs);
    var rows := Rows(ArrayTemplate, cs);
    ExampleRows();
    TwoRowsConcat(rows);
    TwoRowsBytes(rows[0], rows[1], Text.Concat(rows));
  }

  lemma ExampleRows()
    ensures Rows(ArrayTemplate, [["1", "2"], ["3"]]) == ["1 2 \n", "3 \n"]
  {
    assert Row(ArrayTemplate, ["1", "2"]) == "1 2 \n";
    assert Row(ArrayTemplate, ["3"]) == "3 \n";
  }

  lemma TwoRowsConcat(rows: seq<string>)
    requires |rows| == 2
    ensures Text.Concat(rows) == rows[0] + (rows[1] + "")
  {
    var tail := rows[1..];
    assert |tail| == 1 && tail[0] == rows[1];
    assert tail[1..] == [];
    assert Text.Concat(tail[1..]) == "";
    assert Text.Concat(tail) == rows[1] + "";
    assert Text.Concat(rows) == rows[0] + Text.Concat(tail);
  }

  /** Regroups concatenations only; it steers the solver and has no counterpart in the library. */
  lemma TwoRowsBytes(r0: string, r1: string, all: string)
    requires r0 == "1 2 \n" && r1 == "3 \n" && all == r0 + (r1 + "")
    ensures "" + all + "\n" == "1 2 \n3 \n\n"
  {
  }

  /** `Location()` on line 42 of `main.cpp`. */
  lemma LocationOfMain()
    ensures SourceLocation.Location("main.cpp", 42) == "[FILE: main.cpp LINE: 42] "
  {
    assert Decimal.Render(42) == "42";
    LocationBytes("[FILE: ", "main.cpp", " LINE: ", Decimal.Render(42), "] ");
  }

  /** Regroups concatenations only; it steers the solver and has no counterpart in the library. */
  lemma LocationBytes(a: string, f: string, t: string, d: string, c: string)
    requires a == "[FILE: " && f == "main.cpp" && t == " LINE: " && d == "42" && c == "] "
    ensures a + f + t + d + c == "[FILE: main.cpp LINE: 42] "
  {
  }

}

=== FILE: session.dfy ===
/**
 A sequence of library calls against one state. Each call is one public
 overload with its arguments already rendered; `Run` applies them in order.
 The lemmas here are the promises that span calls: standard output is only
 appended to, a call's output does not depend on what was printed before,
 `firstArg` stays clear, and a disabled build leaves everything alone except
 the truncation done by opening a file by path.
 */
module Session {
  import opened Colors
  import opened Templates
  import opened Formatter
  import Text

  datatype Call =
    | PrintWith(pt: PrintTemplate, args: seq<string>)                  // Print(pt, printables...)
    | PrintPlain(args: seq<string>)                                    // Print(printables...)
    | PrintEachWith(pt: PrintTemplate, containers: seq<seq<string>>)   // Print(pt, containers...)
    | PrintEachPlain(containers: seq<seq<string>>)                     // Print(containers...)
    | ToStream(pt: PrintTemplate, args: seq<string>)                   // PrintToFile(ofs, pt, printables...)
    | ToStreamPlain(args: seq<string>)                                 // PrintToFile(ofs, printables...)
    | ToPath(opens: bool, args: seq<string>)                           // PrintToFile(path, printables...)
    | FromStream(isOpen: bool, content: string)                        // PrintFromFile(ifs)
    | FromPath(opens: bool)                                            // PrintFromFile(path)

  /** Every variadic overload takes at least one argument. */
  predicate WellFormed(c: Call) {
    match c
    case PrintWith(_, args) => |args| >= 1
    case PrintPlain(args) => |args| >= 1
    case PrintEachWith(_, cs) => |cs| >= 1
    case PrintEachPlain(cs) => |cs| >= 1
    case ToStream(_, args) => |args| >= 1
    case ToStreamPlain(args) => |args| >= 1
    case ToPath(_, args) => |args| >= 1
    case FromStream(_, _) => true
    case FromPath(_) => true
  }

  predicate AllWellFormed(calls: seq<Call>) {
    forall i :: 0 <= i < |calls| ==> WellFormed(calls[i])
  }

  /** A call that replaces the file's contents instead of appending to it. */
  predicate Truncates(c: Call) {
    c.ToPath? && c.opens
  }

  /** What a call writes to standard output, given the flag and the file contents before it. */
  function Emission(g: Gates, c: Call, firstArg: bool, file: string): string
    requires WellFormed(c)
  {
    if !g.enabled then ""
    else
      match c
      case PrintWith(pt, args) => ScalarText(g.colors, pt, args)
      case PrintPlain(args) => ScalarText(g.colors, PlainTemplate, args)
      case PrintEachWith(pt, cs) =>
        if |cs| == 1 then Row(pt, cs[0]) else ContainersText(g.colors, pt, cs, firstArg)
      case PrintEachPlain(cs) =>
        if |cs| == 1 then Row(ArrayTemplate, cs[0]) else ContainersText(g.colors, ArrayTemplate, cs, firstArg)
      case FromStream(isOpen, content) => if isOpen then content else ""
      case FromPath(opens) => if opens then file else ""
      case _ => ""
  }

  /** The file's contents after a call. */
  function FileAfter(g: Gates, c: Call, file: string): string
    requires WellFormed(c)
  {
    match c
    case ToStream(pt, args) => if g.enabled then file + Framed(pt, args) else file
    case ToStreamPlain(args) => if g.enabled then file + Framed(PlainTemplate, args) else file
    case ToPath(opens, args) =>
      if !opens then file else if g.enabled then Framed(PlainTemplate, args) else ""
    case _ => file
  }

  /** The `firstArg` flag after a call: only the variadic container overload writes it, and leaves it clear. */
  function FirstArgAfter(g: Gates, c: Call, firstArg: bool): bool {
    if !g.enabled then firstArg
    else
      match c
      case PrintEachWith(_, cs) => if |cs| >= 2 then false else firstArg
      case PrintEachPlain(cs) => if |cs| >= 2 then false else firstArg
      case _ => firstArg
  }

  /** The effect of one call: its emission appended to stdout, the file and flag as described above. */
  function Step(g: Gates, c: Call, s: Sinks): (r: Sinks)
    requires WellFormed(c)
    ensures r.stdout == s.stdout + Emission(g, c, s.firstArg, s.file)
    ensures r.file == FileAfter(g, c, s.file)
    ensures r.firstArg == FirstArgAfter(g, c, s.firstArg)
  {
    match c
    case PrintWith(pt, args) => PrintScalars(g, pt, args, s)
    case PrintPlain(args) => PrintScalarsDefault(g, args, s)
    case PrintEachWith(pt, cs) => PrintContainerCall(g, pt, cs, s)
    case PrintEachPlain(cs) => PrintContainersDefault(g, cs, s)
    case ToStream(pt, args) => PrintToFile(g, pt, args, s)
    case ToStreamPlain(args) => PrintToFileDefault(g, args, s)
    case ToPath(opens, args) => PrintToPath(g, opens, args, s)
    case FromStream(isOpen, content) => PrintFromFile(g, isOpen, content, s)
    case FromPath(opens) => PrintFromPath(g, opens, s)
  }

  /** The calls applied in order. */
  function Run(g: Gates, calls: seq<Call>, s: Sinks): Sinks
    requires AllWellFormed(calls)
    decreases |calls|
  {
    if |calls| == 0 then s
    else Run(g, calls[1..], Step(g, calls[0], s))
  }

  /** The same state with nothing printed yet. */
  function Blank(s: Sinks): Sinks {
    s.(stdout := "")
  }

  /** What a call prints does not depend on what was printed before it. */
  lemma StepAppends(g: Gates, c: Call, s: Sinks)
    requires WellFormed(c)
    ensures Step(g, c, s).stdout == s.stdout + Step(g, c, Blank(s)).stdout
    ensures Blank(Step(g, c, s)) == Blank(Step(g, c, Blank(s)))
  {
    var b := Blank(s);
    assert b.firstArg == s.firstArg && b.file == s.file;
    var e := Emission(g, c, s.firstArg, s.file);
    assert Step(g, c, b).stdout == "" + e;
    assert "" + e == e;
  }

  /** Running calls after earlier output gives that output followed by what the calls print on their own. */
  lemma {:induction false} RunAppends(g: Gates, calls: seq<Call>, s: Sinks)
    requires AllWellFormed(calls)
    ensures Run(g, calls, s).stdout == s.stdout + Run(g, calls, Blank(s)).stdout
    ensures Blank(Run(g, calls, s)) == Blank(Run(g, calls, Blank(s)))
    decreases |calls|
  {
    if |calls| > 0 {
      var c := calls[0];
      var s1 := Step(g, c, s);
      var b1 := Step(g, c, Blank(s));
      StepAppends(g, c, s);
      RunAppends(g, calls[1..], s1);
      RunAppends(g, calls[1..], b1);
      assert Blank(s1) == Blank(b1);
    }
  }

  /** Two call sequences in a row are one sequence. */
  lemma {:induction false} RunConcat(g: Gates, a: seq<Call>, b: seq<Call>, s: Sinks)
    requires AllWellFormed(a) && AllWellFormed(b)
    ensures AllWellFormed(a + b)
    ensures Run(g, a + b, s) == Run(g, b, Run(g, a, s))
    decreases |a|
  {
    if |a| == 0 {
      assert a + b == b;
    } else {
      assert (a + b)[0] == a[0];
      assert (a + b)[1..] == a[1..] + b;
      RunConcat(g, a[1..], b, Step(g, a[0], s));
    }
  }

  /** Two calls in a row print the concatenation of what each prints on its own. */
  lemma TwoCallsConcatenate(g: Gates, a: Call, b: Call, s: Sinks)
    requires WellFormed(a) && WellFormed(b)
    ensures Run(g, [a, b], s).stdout
            == s.stdout + Step(g, a, Blank(s)).stdout + Step(g, b, Blank(Step(g, a, s))).stdout
  {
    var s1 := Step(g, a, s);
    StepAppends(g, a, s);
    StepAppends(g, b, s1);
    assert [a, b][1..] == [b];
    assert [b][1..] == [];
    assert Run(g, [b], s1) == Step(g, b, s1);
  }

  /** Two call sequences in a row print the concatenation of what each prints on its own. */
  lemma SequencesConcatenate(g: Gates, a: seq<Call>, b: seq<Call>, s: Sinks)
    requires AllWellFormed(a) && AllWellFormed(b)
    ensures AllWellFormed(a + b)
    ensures Run(g, a + b, s).stdout
            == s.stdout + Run(g, a, Blank(s)).stdout + Run(g, b, Blank(Run(g, a, s))).stdout
  {
    RunConcat(g, a, b, s);
    RunAppends(g, a, s);
    RunAppends(g, b, Run(g, a, s));
  }

  /** `firstArg` is clear between calls: no call sequence leaves it set. */
  lemma {:induction false} FirstArgStaysClear(g: Gates, calls: seq<Call>, s: Sinks)
    requires AllWellFormed(calls)
    requires !s.firstArg
    ensures !Run(g, calls, s).firstArg
    decreases |calls|
  {
    if |calls| > 0 {
      FirstArgStaysClear(g, calls[1..], Step(g, calls[0], s));
    }
  }

  /**
   With logging compiled out nothing is printed and `firstArg` never moves;
   the file changes only by the truncation `std::ofstream(path)` performs.
   */
  lemma {:induction false} DisabledRunIsSilent(g: Gates, calls: seq<Call>, s: Sinks)
    requires AllWellFormed(calls)
    requires !g.enabled
    ensures Run(g, calls, s).stdout == s.stdout
    ensures Run(g, calls, s).firstArg == s.firstArg
    ensures (forall i :: 0 <= i < |calls| ==> !Truncates(calls[i])) ==> Run(g, calls, s).file == s.file
    ensures Run(g, calls, s).file == s.file || Run(g, calls, s).file == ""
    decreases |calls|
  {
    if |calls| > 0 {
      var s1 := Step(g, calls[0], s);
      DisabledRunIsSilent(g, calls[1..], s1);
      if Run(g, calls[1..], s1).file == s1.file && s1.file == "" {
        assert Run(g, calls, s).file == "";
      }
    }
  }

  /** Writing arguments to a file by path and printing that file back puts the plain-template line on stdout. */
  lemma FileRoundTrip(g: Gates, args: seq<string>, s: Sinks)
    requires g.enabled && |args| >= 1
    ensures AllWellFormed([ToPath(true, args), FromPath(true)])
    ensures Run(g, [ToPath(true, args), FromPath(true)], s).stdout == s.stdout + Text.Join(" ", args) + "\n"
    ensures Run(g, [ToPath(true, args), FromPath(true)], s).file == Text.Join(" ", args) + "\n"
  {
    var calls := [ToPath(true, args), FromPath(true)];
    var s1 := Step(g, ToPath(true, args), s);
    assert calls[1..] == [FromPath(true)];
    assert [FromPath(true)][1..] == [];
    assert Run(g, [FromPath(true)], s1) == Step(g, FromPath(true), s1);
  }

  /** A file opened by path but written while logging is compiled out is left empty. */
  lemma DisabledPathWriteEmptiesFile(g: Gates, args: seq<string>, s: Sinks)
    requires !g.enabled && |args| >= 1
    ensures Run(g, [ToPath(true, args)], s).file == ""
    ensures Run(g, [ToPath(true, args)], s).stdout == s.stdout
  {
    assert [ToPath(true, args)][1..] == [];
  }

}

=== FILE: templates.dfy ===
/** Print templates: the framing of one call's output, and the presets the library defines. */
module Templates {
  import opened Colors

  /**
   `start` is written once before the arguments, `delimiter` between adjacent
   arguments (and after each container), `end` once after the last argument.
   */
  datatype PrintTemplate = PrintTemplate(start: string, delimiter: string, end: string, color: Color)

  /** Used by the scalar overloads and the file overloads that take no template. */
  const PlainTemplate: PrintTemplate := PrintTemplate("", " ", "\n", HighIntensityWhite)

  /** Used by the container overload that takes no template. */
  const ArrayTemplate: PrintTemplate := PrintTemplate("", "\n", "\n", HighIntensityWhite)

  const ErrorTemplate: PrintTemplate := PrintTemplate("Error: ", " ", "\n", Red)
  const WarningTemplate: PrintTemplate := PrintTemplate("Warning: ", " ", "\n", Yellow)
  const MessageTemplate: PrintTemplate := PrintTemplate("Message: ", " ", "\n", Green)

}

=== FILE: text.dfy ===
/**
 Joining and splitting of strings. `Join` is the reference meaning of
 "elements separated by a delimiter"; `Split` on a single character is its
 inverse whenever no element contains that character.
 */
module Text {

  /** The elements of `xs`, in order, with `sep` between adjacent ones. */
  function Join(sep: string, xs: seq<string>): string
    decreases |xs|
  {
    if |xs| == 0 then ""
    else if |xs| == 1 then xs[0]
    else xs[0] + sep + Join(sep, xs[1..])
  }

  /** All strings of `xs`, in order, with nothing between them. */
  function Concat(xs: seq<string>): string
    decreases |xs|
  {
    if |xs| == 0 then "" else xs[0] + Concat(xs[1..])
  }

  lemma {:induction false} ConcatSnoc(xs: seq<string>, y: string)
    ensures Concat(xs + [y]) == Concat(xs) + y
    decreases |xs|
  {
    if |xs| == 0 {
      assert [y][1..] == [];
    } else {
      assert (xs + [y])[1..] == xs[1..] + [y];
      ConcatSnoc(xs[1..], y);
    }
  }

  /** The concatenation of a non-empty list is that of all but the last element, then the last. */
  lemma ConcatDropLast(xs: seq<string>)
    requires |xs| >= 1
    ensures Concat(xs) == Concat(xs[..|xs| - 1]) + xs[|xs| - 1]
  {
    assert xs[..|xs| - 1] + [xs[|xs| - 1]] == xs;
    ConcatSnoc(xs[..|xs| - 1], xs[|xs| - 1]);
  }

  /** The concatenation of at least two strings, split at its first and last element. */
  lemma ConcatEnds(xs: seq<string>)
    requires |xs| >= 2
    ensures Concat(xs) == xs[0] + (Concat(xs[1..|xs| - 1]) + xs[|xs| - 1])
  {
    ConcatDropLast(xs[1..]);
    assert xs[1..][..|xs| - 2] == xs[1..|xs| - 1];
  }

  /** The pieces of `s` between occurrences of `c` (an empty `s` is one empty piece). */
  function Split(s: string, c: char): (pieces: seq<string>)
    ensures |pieces| >= 1
    ensures forall i :: 0 <= i < |pieces| ==> c !in pieces[i]
    decreases |s|
  {
    if |s| == 0 then [""]
    else
      var rest := Split(s[1..], c);
      if s[0] == c then [""] + rest
      else [[s[0]] + rest[0]] + rest[1..]
  }

  /** Appending one element to a non-empty list adds one separator and that element. */
  lemma {:induction false} JoinSnoc(sep: string, xs: seq<string>, y: string)
    requires |xs| >= 1
    ensures Join(sep, xs + [y]) == Join(sep, xs) + sep + y
    decreases |xs|
  {
    if |xs| == 1 {
      assert xs + [y] == [xs[0], y];
      assert (xs + [y])[1..] == [y];
    } else {
      assert (xs + [y])[1..] == xs[1..] + [y];
      JoinSnoc(sep, xs[1..], y);
    }
  }

  /** A string without `c` is a single piece. */
  lemma {:induction false} SplitWithout(x: string, c: char)
    requires c !in x
    ensures Split(x, c) == [x]
    decreases |x|
  {
    if |x| > 0 {
      SplitWithout(x[1..], c);
      assert [x[0]] + x[1..] == x;
    }
  }

  /** A leading piece that does not contain `c`, followed by `c`, is split off intact. */
  lemma {:induction false} SplitCons(x: string, c: char, rest: string)
    requires c !in x
    ensures Split(x + [c] + rest, c) == [x] + Split(rest, c)
    decreases |x|
  {
    var s := x + [c] + rest;
    if |x| == 0 {
      assert s[0] == c && s[1..] == rest;
    } else {
      assert s[0] == x[0];
      assert s[1..] == x[1..] + [c] + rest;
      SplitCons(x[1..], c, rest);
      assert [x[0]] + x[1..] == x;
    }
  }

  /** Splitting a joined list recovers the list when no element contains the separator. */
  lemma {:induction false} SplitJoin(xs: seq<string>, c: char)
    requires |xs| >= 1
    requires forall i :: 0 <= i < |xs| ==> c !in xs[i]
    ensures Split(Join([c], xs), c) == xs
    decreases |xs|
  {
    if |xs| == 1 {
      SplitWithout(xs[0], c);
    } else {
      SplitJoin(xs[1..], c);
      SplitCons(xs[0], c, Join([c], xs[1..]));
      assert [xs[0]] + xs[1..] == xs;
    }
  }

}
